=== FILE: README.md ===
# User service model

A Dafny model of `UserService` in `server/services/user.js`. This is the
account service of the application: it creates accounts, answers whether an
e-mail address is taken, changes an account's e-mail preference, address,
username and password, and runs the password-reset flow (issue a token, reset
with it). It also serves two field-projected views of an account. It also
models `uuidv4`, the helper that formats reset tokens.

- `wrappers.dfy` (`Wrappers`): `Option`, for nullable results and fields.
- `uuid.dfy` (`Uuid`): `uuidv4` as a fill of the template
  `xxxxxxxx-xxxx-4xxx-yxxx-xxxxxxxxxxxx` from 31 random nibbles. The model
  proves the version-4 layout of section 4.4 of RFC 4122. It gives an inverse
  (`ParseUuid`): every string with that layout is a possible token. It also
  proves exactly what a token records: every nibble whole, except the variant
  nibble, of which only the two low bits survive.
- `accounts.dfy` (`Accounts`): the account document, the store
  (`map<Id, Account>`), the hasher, and the two store reads the service issues.
  `findById` takes a field-excluding projection. `findOne` takes a one-field
  filter and returns some matching document: when several match, which one is
  left open.
- `user_service.dfy` (`UserService`): one pure transition per service method.
  Each returns `Ok(store', value)` or `ValidationError(reason)`. After a
  `ValidationError` the store is unchanged.
- `properties.dfy` (`Properties`): properties across calls:
  - the transitions keep e-mail addresses unique, and `create` keeps them
    unique only when the new address is unused;
  - the updates and a reset keep reset tokens unique, issuing a token keeps
    them unique when the new token is unused, and `create` keeps them unique
    exactly when the new account has no token or one no account holds;
  - a reset token works once, and a new token revokes the old one;
  - a faithful hasher verifies only the new password after a change;
  - a walk-through: create, request reset, reset, reset again.
- `findings.dfy` (`Findings`): the public profile reveals the reset token,
  and a null token resets the password of some account with no pending reset
  (the one `findOne` returns); see Findings.

The hasher (`bcrypt.hash`, `bcrypt.compare`) is a parameter, a pair of
function values about which nothing is assumed. The exceptions are the
lemmas that state a hasher law in their preconditions: `Faithful`, or
`forall p :: h.hash(p) != p` in `Properties.CreateNeverStoresPlaintext`. The store's fresh
`_id` is an input of `Create`, and the caller must pick one not in use. The
random token is an input of `RequestResetPassword`. That input must have the
version-4 layout, and `Uuid.ParseUuid` shows that such strings are exactly the
strings `uuidv4` can return.

Three points follow the code rather than what a reader might expect:
- An unknown id makes `getMe`/`getById` return null. The model gives `None`
  there, not a NotFound error.
- Nothing in the code keeps a hash different from its plaintext. The model
  proves that `create` never stores the plaintext only for a hasher that never
  returns its input (`Properties.CreateNeverStoresPlaintext`).
- Nothing in the code keeps a reset token held by one account only. Single
  use is proved for a token with one holder (`Properties.ResetTokenSingleUse`).

## Model

| member | source | states |
|---|---|---|
| Uuid.HexDigit | server/services/user.js:6 | `v.toString(16)` of a nibble is a lower-case hex digit, and reading it back gives `v` |
| Uuid.HexDigitOfValue | server/services/user.js:6 | every lower-case hex digit is the digit of its own value, so the digit encoding is a bijection on 0..15 |
| Uuid.VariantNibble | server/services/user.js:5 | `r & 0x3` OR-ed with `0x8` lies in 8..11 and keeps exactly the two low bits of `r` |
| Uuid.Fill | server/services/user.js:4-6 | filling a template keeps its length and its non-placeholder characters; it writes a hex digit for each `x` and a variant digit for each `y` |
| Uuid.Parse | server/services/user.js:4-6 | from any string shaped like a fill, it reads one valid nibble per placeholder |
| Uuid.FillParse | server/services/user.js:4-6 | every string shaped like a fill of the template is the fill of the nibbles read back from it |
| Uuid.ParseFill | server/services/user.js:4-6 | reading a fill back gives its nibbles, with each `y` nibble reduced to its two low bits |
| Uuid.TemplatePlaceholders | server/services/user.js:4 | the template has 31 placeholders, so one call consumes 31 random nibbles |
| Uuid.UuidV4IsTemplateShape | server/services/user.js:4 | a string has the version-4 layout of RFC 4122 exactly when it fits the template |
| Uuid.Uuidv4 | server/services/user.js:3-8 | the token has 36 characters, `-` at 8, 13, 18, 23 and a lower-case hex digit elsewhere; `4` is at 14 and one of `8 9 a b` is at 19 |
| Uuid.ParseUuid | server/services/user.js:3-8 | every string with the version-4 layout is what `uuidv4` returns for some 31 nibbles |
| Uuid.ParseUuidV4 | server/services/user.js:3-8 | reading a token back recovers the nibbles it records |
| Uuid.Uuidv4Injective | server/services/user.js:3-8 | two draws give the same token if and only if they agree everywhere except in the high bits of the variant nibble |
| Accounts.FindOne | server/services/user.js:101-104 | `findOne` returns a matching document when there is one, and null exactly when none matches |
| Accounts.FindOneUnique | server/services/user.js:117-120 | when exactly one document matches the filter, `findOne` returns that one |
| Accounts.Project | server/services/user.js:17-35 | a projection keeps exactly the fields not excluded, with the document's values |
| Accounts.FindById | server/services/user.js:17-35 | `findById` with a projection is null for an unknown id; otherwise it holds exactly the non-excluded fields of that document |
| UserService.GetMe | server/services/user.js:17-23 | the owner's profile exists exactly for known ids and omits only the password and the premium end date |
| UserService.GetById | server/services/user.js:25-35 | the public profile exists exactly for known ids and omits the six listed fields and nothing else |
| UserService.GetByIdShowsLess | server/services/user.js:17-35 | `getById` excludes a superset of what `getMe` excludes; whatever it shows, `getMe` shows with the same value |
| UserService.Create | server/services/user.js:37-45 | `create` adds exactly one document, under the fresh id it returns; the password field is the hash of the given password, every other field comes from the input, and no other document changes |
| UserService.UserExists | server/services/user.js:47-53 | true exactly when some account has the address |
| UserService.UpdateEmailPreference | server/services/user.js:55-61 | always succeeds; only `emailEnabled` of that account changes, to the given value; the saved document is returned |
| UserService.UpdateEmailAddress | server/services/user.js:63-73 | fails with EmailInUse if and only if some account, the caller's own included, has the address; otherwise only that account's `email` changes, to the new address |
| UserService.UpdateUsername | server/services/user.js:75-81 | always succeeds, with no uniqueness check; only `username` of that account changes |
| UserService.UpdatePassword | server/services/user.js:83-99 | succeeds if and only if the hasher accepts the current password against the stored hash; then only the password changes, to the hash of the new one; otherwise CurrentPasswordIncorrect |
| UserService.RequestResetPassword | server/services/user.js:101-115 | fails if and only if no account has the address; otherwise one account with that address gets the token, nothing else changes, and the token is returned |
| UserService.RequestResetReturnsUuid | server/services/user.js:110-114 | every token `uuidv4` can produce is accepted and returned unchanged, so the token returned has the version-4 layout |
| UserService.ResetPassword | server/services/user.js:117-133 | the token argument, null included, is an equality filter: fails with TokenInvalid if and only if no account has that token value; otherwise one such account gets the hash of the new password and a null token, and nothing else changes |
| Properties.FrameKeepsUniqueEmails | server/services/user.js:55-61 | a single-document write that leaves `email` alone keeps addresses unique |
| Properties.FrameKeepsUniqueTokens | server/services/user.js:55-61 | a single-document write that leaves the token alone keeps tokens unique |
| Properties.UpdateEmailAddressRefusesOwnEmail | server/services/user.js:63-68 | changing an account's address to its own current address is refused |
| Properties.UpdateEmailAddressKeepsInvariants | server/services/user.js:63-73 | a successful address change never makes two accounts share an address, and keeps tokens unique |
| Properties.CreateUniqueEmails | server/services/user.js:37-45 | after `create`, addresses stay unique if and only if the new address was not in use before |
| Properties.CreateUniqueTokens | server/services/user.js:37-45 | after `create`, tokens stay unique if and only if the new account has no token or one no account holds, since the input's token is copied unchecked |
| Properties.CreateNeverStoresPlaintext | server/services/user.js:37-45 | for a hasher that never returns its input, the stored password of a new account differs from the plaintext given |
| Properties.UpdateEmailPreferenceKeepsInvariants | server/services/user.js:55-61 | changing the e-mail preference keeps addresses and tokens unique |
| Properties.UpdateUsernameKeepsInvariants | server/services/user.js:75-81 | changing the username keeps addresses and tokens unique |
| Properties.UpdatePasswordKeepsInvariants | server/services/user.js:83-99 | a successful password change keeps addresses and tokens unique |
| Properties.ResetPasswordKeepsInvariants | server/services/user.js:117-133 | a successful reset keeps addresses and tokens unique |
| Properties.RequestResetKeepsInvariants | server/services/user.js:101-115 | issuing a token keeps addresses unique, and keeps tokens unique when no account held the new token |
| Properties.ResetTokenSingleUse | server/services/user.js:117-133 | a token held by one account resets it once; a second reset with that token is refused |
| Properties.NewTokenRevokesOld | server/services/user.js:101-133 | when the only holder of a token is issued a different one, the old token resolves to no account |
| Properties.UpdatePasswordVerifiesNewOnly | server/services/user.js:83-99 | with a faithful hasher, after a change the new password verifies and the replaced one does not |
| Properties.ResetWalkThrough | server/services/user.js:37-133 | create, then request reset, then reset: the first reset succeeds and the second is refused; with a faithful hasher, only the new password verifies |
| Findings.GetByIdRevealsResetToken | server/services/user.js:25-35 | as written, the public profile of an account with a pending reset shows its token, and that token resets the password |
| Findings.GetByIdDependsOnToken | server/services/user.js:25-35 | as written, two stores that differ only in a pending token give different public profiles |
| Findings.GetPublicProfile | server/services/user.js:25-35 | the corrected public profile omits the reset token and otherwise shows exactly what `getById` shows |
| Findings.PublicProfileHidesSecrets | server/services/user.js:25-35 | the corrected public profile is the same for any two accounts that differ only in hidden fields |
| Findings.ResetPasswordAcceptsNullToken | server/services/user.js:117-124 | as written, a null token succeeds whenever some account has no pending reset, and sets the password of one such account, the one `findOne` returns; when that account is the only one without a token, it is that account's password |
| Findings.NullTokenReopensReset | server/services/user.js:117-133 | as written, after a successful reset clears the token to null, a reset with a null token succeeds again; when every other account has a pending reset, it sets the password of the account just reset |
| Findings.ResetPasswordChecked | server/services/user.js:117-133 | the corrected reset refuses a null token; for a non-null token it behaves as `resetPassword`, and success means an account held that token |
| Findings.CheckedResetKeepsInvariants | server/services/user.js:117-133 | a successful corrected reset keeps addresses and tokens unique, for every token argument, null included |
| Findings.CheckedResetSingleUse | server/services/user.js:117-133 | with the correction, a token with one holder resets once; afterwards neither it nor null resets that account, and any token that still succeeds belongs to another account |

## Left out

- bcrypt internals and the cost factor `10`. The hasher is a parameter. Its `hash` is one deterministic function, but real bcrypt salts each hash. No law links `hash` to `compare`, except where a lemma requires `Faithful`.
- `Math.random()` and its floating-point arithmetic. The 31 nibbles of `uuidv4` are an input. `RequestResetPassword` takes the drawn token itself, a string of the version-4 layout.
- Mongoose persistence: `save()` failures, schema defaults and casting in `new userModel(user)`, schema-level unique indexes, and how `_id` is generated. `Create` takes a fresh id as a precondition.
- `_id` as a field of a projected profile. The projections model only the seven account fields.
- async/await and the race between `userExists` and `save`. This is concurrency, and the code makes no claim of atomicity for it.
- The text of each `ValidationError` message. A reason tag stands in for it; for an unknown address the tag also carries the address.
- A call with an unknown id crashes in the update methods, because they dereference the null `findById` result. The model states a known id as a precondition. It therefore also leaves out one case: `updateEmailAddress` with an unknown id and an address in use throws a ValidationError before it reaches the crash.
- Properties.UpdatePasswordVerifiesNewOnly: it holds only for a faithful hasher, because the code itself does not promise that a hash verifies against its plaintext. Likewise, that the stored password never equals the plaintext is proved only for a hasher that never returns its input (`Properties.CreateNeverStoresPlaintext`).
- A token argument of `undefined`, which the query layer may drop from the filter so that it matches any account, is not modelled. The model's token argument is a string or null.
- Properties.RequestResetKeepsInvariants: token uniqueness is proved only when the new token is unused, because nothing in the code rules out a repeated token.

## Findings

| source | as written | input that shows it | evidently intended | confidence | as-written member | corrected member |
|---|---|---|---|---|---|---|
| server/services/user.js:25-35 | `getById` excludes password, premiumEndDate, credits, email, emailEnabled and username, but not resetPasswordToken | any account after `requestResetPassword`: its public profile carries the token, and `resetPassword(token, p)` then sets its password to `p` | the public profile also leaves out the reset token | medium: depends on the account schema not hiding the field itself (the schema is not part of this model); not executed | Findings.GetByIdRevealsResetToken | Findings.GetPublicProfile |
| server/services/user.js:117-130 | `resetPassword` passes its token argument to `findOne` unchecked, and a successful reset stores null as the token | `resetPassword(null, p)` while some account has no pending reset, for example one just reset: `findOne({resetPasswordToken: null})` matches it, and the password of the account it returns becomes `p`; when the account just reset is the only one without a token, that is its password | a missing token is refused with "The token is invalid." | medium: relies on MongoDB matching a null filter to a null field, and on callers passing null through; not executed | Findings.ResetPasswordAcceptsNullToken | Findings.ResetPasswordChecked |

In this model the projections cover only the seven account fields, since
`_id` is left out. The corrected public profile therefore hides every field
it has: it is always empty, and `Findings.PublicProfileHidesSecrets` holds
trivially. With `_id` in the document, the public profile would consist of
`_id` alone.

`Properties.ResetTokenSingleUse`, `Properties.NewTokenRevokesOld` and
`Properties.ResetWalkThrough` reset only with non-null tokens, for which
`Findings.ResetPasswordChecked` and `UserService.ResetPassword` agree.
`Properties.ResetPasswordKeepsInvariants` also covers a null token. It carries
over to the corrected reset because that reset refuses null and otherwise
agrees with `resetPassword` (`Findings.CheckedResetKeepsInvariants`).

=== FILE: accounts.dfy ===
/**
  The account records server/services/user.js reads and writes, the document
  store that holds them, and the two store reads it issues: `findById`, with
  its field-excluding projections, and `findOne` with a one-field filter.
 */
module Accounts {
  import opened Wrappers

  /** The store-assigned `_id`. */
  type Id = nat

  /** One user document. `password` holds whatever the hasher produced;
      `premiumEndDate` is a nullable timestamp; `resetPasswordToken` is null
      until a reset is requested and again after it is used. */
  datatype Account = Account(
    email: string,
    username: string,
    password: string,
    emailEnabled: bool,
    credits: int,
    premiumEndDate: Option<int>,
    resetPasswordToken: Option<string>)

  /** The collection of user documents, keyed by `_id`. */
  type Store = map<Id, Account>

  /** The password hasher: `bcrypt.hash` and `bcrypt.compare`. Nothing is
      assumed about how the two relate. */
  datatype Hasher = Hasher(hash: string -> string, compare: (string, string) -> bool)

  /** The fields of an account, as a projection names them. */
  datatype Field =
    | Email | Username | Password | EmailEnabled | Credits | PremiumEndDate | ResetPasswordToken

  const AllFields: set<Field> :=
    {Email, Username, Password, EmailEnabled, Credits, PremiumEndDate, ResetPasswordToken}

  /** The value of one field. */
  datatype Value =
    | Text(text: string)
    | Flag(flag: bool)
    | Number(number: int)
    | Date(date: Option<int>)
    | Token(token: Option<string>)

  function Get(a: Account, f: Field): Value {
    match f
    case Email => Text(a.email)
    case Username => Text(a.username)
    case Password => Text(a.password)
    case EmailEnabled => Flag(a.emailEnabled)
    case Credits => Number(a.credits)
    case PremiumEndDate => Date(a.premiumEndDate)
    case ResetPasswordToken => Token(a.resetPasswordToken)
  }

  lemma AllFieldsComplete()
    ensures forall f: Field :: f in AllFields
  {
    forall f: Field
      ensures f in AllFields
    {
      match f
      case Email =>
      case Username =>
      case Password =>
      case EmailEnabled =>
      case Credits =>
      case PremiumEndDate =>
      case ResetPasswordToken =>
    }
  }

  /** `a` and `b` agree on every field outside `fs`. */
  ghost predicate SameExcept(a: Account, b: Account, fs: set<Field>) {
    forall f: Field :: f !in fs ==> Get(a, f) == Get(b, f)
  }

  /** `s'` is `s` with one write to the document `id` that touched only the
      fields `fs`: no document appears or disappears and no other one changes. */
  ghost predicate UpdatedOnly(s: Store, s': Store, id: Id, fs: set<Field>)
    requires id in s
  {
    && s'.Keys == s.Keys
    && (forall j :: j in s && j != id ==> s'[j] == s[j])
    && SameExcept(s[id], s'[id], fs)
  }

  /** A `findOne` filter on a single field. The token filter takes whatever
      value the caller passed, null included. */
  datatype Filter = ByEmail(email: string) | ByResetToken(token: Option<string>)

  /** An equality filter. A null filter value matches a document whose field
      is null or missing; the model has no missing fields, so null matches
      `None`. */
  predicate Matches(a: Account, q: Filter) {
    match q
    case ByEmail(e) => a.email == e
    case ByResetToken(t) => a.resetPasswordToken == t
  }

  /** `findOne(q)`: some document matching `q`, or null when none does. Which
      one is left open when several match. */
  ghost function FindOne(s: Store, q: Filter): (r: Option<Id>)
    ensures r.Some? ==> r.value in s && Matches(s[r.value], q)
    ensures r.None? <==> forall id :: id in s ==> !Matches(s[id], q)
  {
    if exists id :: id in s && Matches(s[id], q) then
      var id :| id in s && Matches(s[id], q);
      Some(id)
    else
      None
  }

  /** When exactly one document matches, `findOne` returns it. */
  lemma FindOneUnique(s: Store, q: Filter, id: Id)
    requires id in s && Matches(s[id], q)
    requires forall j :: j in s && Matches(s[j], q) ==> j == id
    ensures FindOne(s, q) == Some(id)
  {
  }

  /** A document with the fields listed in `hidden` left out: the projection
      argument `{field: 0, …}` of `findById`. */
  type Profile = map<Field, Value>

  function Project(a: Account, hidden: set<Field>): (p: Profile)
    ensures forall f :: f in p <==> f !in hidden
    ensures forall f :: f in p ==> p[f] == Get(a, f)
  {
    AllFieldsComplete();
    map f | f in AllFields && f !in hidden :: Get(a, f)
  }

  /** `findById(id, projection)`: null for an unknown id. */
  function FindById(s: Store, id: Id, hidden: set<Field>): (r: Option<Profile>)
    ensures r.Some? <==> id in s
    ensures r.Some? ==> forall f :: f in r.value <==> f !in hidden
    ensures r.Some? ==> forall f :: f in r.value ==> r.value[f] == Get(s[id], f)
  {
    if id in s then Some(Project(s[id], hidden)) else None
  }
}

=== FILE: findings.dfy ===
/**
  The profile `getById` serves about other users leaves out the password, the
  premium date, the credits and the contact fields, but not
  `resetPasswordToken`. Whoever reads another user's profile while a reset is
  pending obtains a token that `resetPassword` accepts. This module states
  that for the projection as written, and gives the projection that also
  leaves the token out, with the property the exclusion list evidently aims
  at: the public profile reveals nothing of the fields it hides.

  Second, `resetPassword` hands its token argument to `findOne` unchecked.
  A null token is an equality filter on null, which matches every account
  with no pending reset, including one whose token an earlier reset has just
  cleared to null. So `resetPassword(null, p)` sets the password of one such
  account, the one `findOne` returns, to `p`. This module states that for the reset as written, and
  gives the reset that refuses a null token, with the single-use property
  proved for it.
 */
module Findings {
  import opened Wrappers
  import opened Accounts
  import opened UserService
  import Properties

  /** As written: the public profile of an account with a pending reset shows
      its token, and that token resets the account's password. */
  lemma GetByIdRevealsResetToken(s: Store, id: Id, t: string, p: string, h: Hasher)
    requires id in s && s[id].resetPasswordToken == Some(t)
    ensures ResetPasswordToken in GetById(s, id).value
    ensures GetById(s, id).value[ResetPasswordToken] == Token(Some(t))
    ensures ResetPassword(s, Some(t), p, h).Ok?
  {
  }

  /** As written: two stores that differ only in a pending token give
      different public profiles. */
  lemma GetByIdDependsOnToken(s: Store, id: Id, t: string)
    requires id in s && s[id].resetPasswordToken != Some(t)
    ensures var s' := s[id := s[id].(resetPasswordToken := Some(t))];
      GetById(s, id) != GetById(s', id)
  {
  }

  /** The fields the public profile is meant to hide: those of `getById` and
      the reset token. */
  const PublicHidden: set<Field> :=
    {Password, PremiumEndDate, Credits, Email, EmailEnabled, Username, ResetPasswordToken}

  /** `getById` with the reset token left out as well. */
  function GetPublicProfile(s: Store, id: Id): (r: Option<Profile>)
    ensures r.Some? <==> id in s
    ensures r.Some? ==> ResetPasswordToken !in r.value
    ensures r.Some? ==> forall f :: f in r.value ==> f in GetById(s, id).value && r.value[f] == GetById(s, id).value[f]
  {
    FindById(s, id, PublicHidden)
  }

  /** The corrected public profile does not depend on any hidden field: two
      accounts that differ only there look the same. */
  lemma PublicProfileHidesSecrets(s: Store, s': Store, id: Id)
    requires id in s && id in s'
    requires SameExcept(s[id], s'[id], PublicHidden)
    ensures GetPublicProfile(s, id) == GetPublicProfile(s', id)
  {
  }

  /** As written: a null token resets the password of some account with no
      pending reset, the one `findOne` returns; when `id` is the only such
      account, it is `id`'s. */
  lemma ResetPasswordAcceptsNullToken(s: Store, id: Id, p: string, h: Hasher)
    requires id in s && s[id].resetPasswordToken == None
    ensures var r := ResetPassword(s, None, p, h);
      && r.Ok?
      && (exists j :: j in s && s[j].resetPasswordToken == None && r.store[j].password == h.hash(p))
      && ((forall j :: j in s && s[j].resetPasswordToken == None ==> j == id) ==>
            r.store[id].password == h.hash(p))
  {
    if forall j :: j in s && s[j].resetPasswordToken == None ==> j == id {
      FindOneUnique(s, ByResetToken(None), id);
    }
  }

  /** As written: the null a successful reset writes makes a null-token reset
      succeed again; when every other account has a pending reset, that
      second reset sets the password of the account just reset. */
  lemma NullTokenReopensReset(s: Store, id: Id, t: string, p: string, p': string, h: Hasher)
    requires Properties.SoleHolder(s, id, t)
    ensures var r := ResetPassword(s, Some(t), p, h);
      && r.Ok?
      && r.store[id].resetPasswordToken == None
      && ResetPassword(r.store, None, p', h).Ok?
      && ((forall j :: j in s && j != id ==> s[j].resetPasswordToken.Some?) ==>
            ResetPassword(r.store, None, p', h).store[id].password == h.hash(p'))
  {
    FindOneUnique(s, ByResetToken(Some(t)), id);
    var r := ResetPassword(s, Some(t), p, h);
    if forall j :: j in s && j != id ==> s[j].resetPasswordToken.Some? {
      FindOneUnique(r.store, ByResetToken(None), id);
    }
  }

  /** `resetPassword` refusing a missing token before it looks one up. */
  ghost function ResetPasswordChecked(s: Store, token: Option<string>, newPassword: string, h: Hasher)
    : (r: Outcome<()>)
    ensures r.ValidationError? <==> token.None? || forall id :: id in s ==> s[id].resetPasswordToken != token
    ensures r.ValidationError? ==> r.reason == TokenInvalid
    ensures token.Some? ==> r == ResetPassword(s, token, newPassword, h)
    ensures r.Ok? ==> exists id :: (
      && id in s && s[id].resetPasswordToken.Some? && s[id].resetPasswordToken == token
      && UpdatedOnly(s, r.store, id, {Password, ResetPasswordToken})
      && r.store[id].password == h.hash(newPassword)
      && r.store[id].resetPasswordToken == None)
  {
    if token.None? then ValidationError(TokenInvalid) else ResetPassword(s, token, newPassword, h)
  }

  /** With the check, a token held by one account works once, and no token
      value, null included, resets the account again until a new token is
      issued. */
  lemma CheckedResetSingleUse(
    s: Store, id: Id, t: string, p: string, p': string, token: Option<string>, h: Hasher)
    requires Properties.SoleHolder(s, id, t)
    ensures var r := ResetPasswordChecked(s, Some(t), p, h);
      && r.Ok?
      && ResetPasswordChecked(r.store, Some(t), p', h) == ValidationError(TokenInvalid)
      && ResetPasswordChecked(r.store, None, p', h) == ValidationError(TokenInvalid)
      && (ResetPasswordChecked(r.store, token, p', h).Ok? ==> exists j :: (
            && j in r.store && j != id && r.store[j].resetPasswordToken == token))
  {
  }

  /** The corrected reset keeps both store invariants, for every token
      argument: null is refused, and any other token resets as
      `resetPassword` does. */
  lemma CheckedResetKeepsInvariants(s: Store, token: Option<string>, newPassword: string, h: Hasher)
    requires Properties.UniqueEmails(s) && Properties.UniqueTokens(s)
    ensures var r := ResetPasswordChecked(s, token, newPassword, h);
      r.Ok? ==> Properties.UniqueEmails(r.store) && Properties.UniqueTokens(r.store)
  {
    if token.Some? {
      Properties.ResetPasswordKeepsInvariants(s, token, newPassword, h);
    }
  }
}

=== FILE: properties.dfy ===
/**
  What the `UserService` transitions guarantee across calls: the store
  invariants they keep (unique e-mail addresses, unique reset tokens; `create`
  keeps either only when its input does not collide), the
  single use of a reset token, the effect of a password change on later
  verification, and the walk-through create / request reset / reset / reset.
 */
module Properties {
  import opened Wrappers
  import opened Accounts
  import opened UserService
  import Uuid

  /** No two accounts share an e-mail address. */
  ghost predicate UniqueEmails(s: Store) {
    forall i, j :: i in s && j in s && s[i].email == s[j].email ==> i == j
  }

  /** No two accounts hold the same (non-null) reset token. */
  ghost predicate UniqueTokens(s: Store) {
    forall i, j ::
      (i in s && j in s && s[i].resetPasswordToken.Some? &&
       s[i].resetPasswordToken == s[j].resetPasswordToken) ==> i == j
  }

  /** `t` is the reset token of exactly the account `id`. */
  ghost predicate SoleHolder(s: Store, id: Id, t: string) {
    && id in s
    && s[id].resetPasswordToken == Some(t)
    && forall j :: j in s && s[j].resetPasswordToken == Some(t) ==> j == id
  }

  /** A hasher whose `compare` accepts a plaintext against a hash exactly when
      the hash was made from that plaintext. bcrypt is meant to behave so; the
      service itself relies on nothing of the kind. */
  ghost predicate Faithful(h: Hasher) {
    forall p, q :: h.compare(p, h.hash(q)) <==> p == q
  }

  /** A write that leaves the e-mail field alone keeps e-mail addresses unique. */
  lemma FrameKeepsUniqueEmails(s: Store, s': Store, id: Id, fs: set<Field>)
    requires id in s && UpdatedOnly(s, s', id, fs) && Email !in fs
    requires UniqueEmails(s)
    ensures UniqueEmails(s')
  {
  }

  /** A write that leaves the token field alone keeps tokens unique. */
  lemma FrameKeepsUniqueTokens(s: Store, s': Store, id: Id, fs: set<Field>)
    requires id in s && UpdatedOnly(s, s', id, fs) && ResetPasswordToken !in fs
    requires UniqueTokens(s)
    ensures UniqueTokens(s')
  {
  }

  /** `updateEmailAddress` refuses an account's own current address. */
  lemma UpdateEmailAddressRefusesOwnEmail(s: Store, id: Id)
    requires id in s
    ensures UpdateEmailAddress(s, id, s[id].email) == ValidationError(EmailInUse)
  {
  }

  /** `updateEmailAddress` never makes two accounts share an address, and
      leaves tokens alone. */
  lemma UpdateEmailAddressKeepsInvariants(s: Store, id: Id, email: string)
    requires id in s && UniqueEmails(s) && UniqueTokens(s)
    ensures var r := UpdateEmailAddress(s, id, email);
      r.Ok? ==> UniqueEmails(r.store) && UniqueTokens(r.store)
  {
    var r := UpdateEmailAddress(s, id, email);
    if r.Ok? {
      FrameKeepsUniqueTokens(s, r.store, id, {Email});
    }
  }

  /** `create` performs no uniqueness check: the new account keeps e-mail
      addresses unique exactly when its address was not in use. */
  lemma CreateUniqueEmails(s: Store, user: Account, id: Id, h: Hasher)
    requires id !in s && UniqueEmails(s)
    ensures UniqueEmails(Create(s, user, id, h).store) <==> !UserExists(s, user.email)
  {
  }

  /** `create` copies the input's token unchecked: tokens stay unique exactly
      when the new account has none, or one no account holds. */
  lemma CreateUniqueTokens(s: Store, user: Account, id: Id, h: Hasher)
    requires id !in s && UniqueTokens(s)
    ensures UniqueTokens(Create(s, user, id, h).store) <==>
      (user.resetPasswordToken.None? || forall j :: j in s ==> s[j].resetPasswordToken != user.resetPasswordToken)
  {
    var s' := Create(s, user, id, h).store;
    assert Get(user, ResetPasswordToken) == Get(s'[id], ResetPasswordToken);
    if user.resetPasswordToken.Some? && exists j :: j in s && s[j].resetPasswordToken == user.resetPasswordToken {
      var j :| j in s && s[j].resetPasswordToken == user.resetPasswordToken;
      assert s'[j].resetPasswordToken == s'[id].resetPasswordToken && j != id;
    }
  }

  /** With a hasher that never returns its input, `create` never stores the
      plaintext password. */
  lemma CreateNeverStoresPlaintext(s: Store, user: Account, id: Id, h: Hasher)
    requires id !in s
    requires forall p :: h.hash(p) != p
    ensures Create(s, user, id, h).store[id].password != user.password
  {
  }

  /** `updateEmailPreference` keeps addresses and tokens unique. */
  lemma UpdateEmailPreferenceKeepsInvariants(s: Store, id: Id, preference: bool)
    requires id in s && UniqueEmails(s) && UniqueTokens(s)
    ensures var r := UpdateEmailPreference(s, id, preference);
      UniqueEmails(r.store) && UniqueTokens(r.store)
  {
    var r := UpdateEmailPreference(s, id, preference);
    FrameKeepsUniqueEmails(s, r.store, id, {EmailEnabled});
    FrameKeepsUniqueTokens(s, r.store, id, {EmailEnabled});
  }

  /** `updateUsername` keeps addresses and tokens unique. */
  lemma UpdateUsernameKeepsInvariants(s: Store, id: Id, username: string)
    requires id in s && UniqueEmails(s) && UniqueTokens(s)
    ensures var r := UpdateUsername(s, id, username);
      UniqueEmails(r.store) && UniqueTokens(r.store)
  {
    var r := UpdateUsername(s, id, username);
    FrameKeepsUniqueEmails(s, r.store, id, {Username});
    FrameKeepsUniqueTokens(s, r.store, id, {Username});
  }

  /** `updatePassword` keeps addresses and tokens unique. */
  lemma UpdatePasswordKeepsInvariants(
    s: Store, id: Id, currentPassword: string, newPassword: string, h: Hasher)
    requires id in s && UniqueEmails(s) && UniqueTokens(s)
    ensures var r := UpdatePassword(s, id, currentPassword, newPassword, h);
      r.Ok? ==> UniqueEmails(r.store) && UniqueTokens(r.store)
  {
    var r := UpdatePassword(s, id, currentPassword, newPassword, h);
    if r.Ok? {
      FrameKeepsUniqueEmails(s, r.store, id, {Password});
      FrameKeepsUniqueTokens(s, r.store, id, {Password});
    }
  }

  /** `resetPassword` keeps both invariants: it changes no address and only
      clears a token. */
  lemma ResetPasswordKeepsInvariants(s: Store, token: Option<string>, newPassword: string, h: Hasher)
    requires UniqueEmails(s) && UniqueTokens(s)
    ensures var r := ResetPassword(s, token, newPassword, h);
      r.Ok? ==> UniqueEmails(r.store) && UniqueTokens(r.store)
  {
  }

  /** `requestResetPassword` keeps addresses unique, and keeps tokens unique
      when the new token is held by no account yet: nothing in the service
      rules out a repeated token. */
  lemma RequestResetKeepsInvariants(s: Store, email: string, token: string)
    requires Uuid.IsUuidV4(token)
    requires UniqueEmails(s) && UniqueTokens(s)
    requires forall j :: j in s ==> s[j].resetPasswordToken != Some(token)
    ensures var r := RequestResetPassword(s, email, token);
      r.Ok? ==> UniqueEmails(r.store) && UniqueTokens(r.store)
  {
  }

  /** A token held by one account works once: after a successful reset with
      it, a second reset with it is refused. */
  lemma ResetTokenSingleUse(s: Store, id: Id, token: string, p: string, p': string, h: Hasher)
    requires SoleHolder(s, id, token)
    ensures ResetPassword(s, Some(token), p, h).Ok?
    ensures ResetPassword(ResetPassword(s, Some(token), p, h).store, Some(token), p', h)
      == ValidationError(TokenInvalid)
  {
  }

  /** Issuing a new token to an account discards its old one: once the only
      holder of `previous` has been given a different token, `previous` resolves to no
      account. */
  lemma NewTokenRevokesOld(s: Store, id: Id, previous: string, token: string, p: string, h: Hasher)
    requires Uuid.IsUuidV4(token)
    requires SoleHolder(s, id, previous)
    requires forall j :: j in s && s[j].email == s[id].email ==> j == id
    requires token != previous
    ensures RequestResetPassword(s, s[id].email, token).Ok?
    ensures ResetPassword(RequestResetPassword(s, s[id].email, token).store, Some(previous), p, h)
      == ValidationError(TokenInvalid)
  {
  }

  /** With a faithful hasher, a successful password change makes the new
      password verify and the one it replaced stop verifying. */
  lemma UpdatePasswordVerifiesNewOnly(s: Store, id: Id, currentPassword: string, newPassword: string, h: Hasher)
    requires id in s && Faithful(h)
    requires UpdatePassword(s, id, currentPassword, newPassword, h).Ok?
    ensures var stored := UpdatePassword(s, id, currentPassword, newPassword, h).store[id].password;
      && h.compare(newPassword, stored)
      && (currentPassword != newPassword ==> !h.compare(currentPassword, stored))
  {
  }

  /** The walk-through of a reset: create an account, request a reset for its
      address, reset with the token, then reset with the same token again.
      The first reset succeeds, the second is refused, and with a faithful
      hasher only the password set by the reset verifies. */
  lemma ResetWalkThrough(user: Account, id: Id, token: string, h: Hasher)
    requires Uuid.IsUuidV4(token) && Faithful(h)
    requires user.email == "a@x.com" && user.password == "secret1"
    ensures var s1 := Create(map[], user, id, h).store;
      var t := RequestResetPassword(s1, "a@x.com", token);
      && t.Ok? && t.value == token
      && var r := ResetPassword(t.store, Some(t.value), "secret2", h);
      && r.Ok?
      && ResetPassword(r.store, Some(t.value), "secret3", h) == ValidationError(TokenInvalid)
      && h.compare("secret2", r.store[id].password)
      && !h.compare("secret1", r.store[id].password)
  {
  }
}

=== FILE: user_service.dfy ===
/**
  The `UserService` class of server/services/user.js, one pure transition per
  service method. A transition takes the store as it is before the call and
  returns either `Ok` with the store after the call and the method's return
  value, or `ValidationError`, in which case the store is left as it was.

  `findById` on an unknown id returns null and the update methods then
  dereference it; a caller must therefore name an existing account, which the
  transitions state as a precondition.
 */
module UserService {
  import opened Wrappers
  import opened Accounts
  import Uuid

  /** Why a `ValidationError` was thrown. */
  datatype Reason =
    | EmailInUse
    | CurrentPasswordIncorrect
    | NoAccountWithEmail(email: string)
    | TokenInvalid

  datatype Outcome<+T> = Ok(store: Store, value: T) | ValidationError(reason: Reason)

  /** The fields `getMe` leaves out of the caller's own profile. */
  const GetMeHidden: set<Field> := {Password, PremiumEndDate}

  /** The fields `getById` leaves out of another user's profile. */
  const GetByIdHidden: set<Field> :=
    {Password, PremiumEndDate, Credits, Email, EmailEnabled, Username}

  /** `getMe(id)`: the caller's own profile, or null for an unknown id. The
      second clause is the headline: the password hash and the premium end
      date are never shown; the third says exactly which fields are. */
  function GetMe(s: Store, id: Id): (r: Option<Profile>)
    ensures r.Some? <==> id in s
    ensures r.Some? ==> Password !in r.value && PremiumEndDate !in r.value
    ensures r.Some? ==> forall f :: f in r.value <==> f !in GetMeHidden
  {
    FindById(s, id, GetMeHidden)
  }

  /** `getById(id)`: the profile other users see, or null for an unknown id. */
  function GetById(s: Store, id: Id): (r: Option<Profile>)
    ensures r.Some? <==> id in s
    ensures r.Some? ==> forall f :: f in r.value <==> f !in GetByIdHidden
  {
    FindById(s, id, GetByIdHidden)
  }

  /** Everything the public profile shows, the owner's profile shows too, with
      the same values. */
  lemma GetByIdShowsLess(s: Store, id: Id)
    requires id in s
    ensures GetMeHidden <= GetByIdHidden
    ensures forall f :: f in GetById(s, id).value ==>
      f in GetMe(s, id).value && GetMe(s, id).value[f] == GetById(s, id).value[f]
  {
  }

  /** `create(user)`: the document built from `user` with its password replaced
      by the hash of it, saved under the fresh id `id`, which is returned.
      The store assigns `id`; here the caller supplies it. */
  function Create(s: Store, user: Account, id: Id, h: Hasher): (r: Outcome<Id>)
    requires id !in s
    ensures r.Ok? && r.value == id
    ensures r.store.Keys == s.Keys + {id}
    ensures forall j :: j in s ==> r.store[j] == s[j]
    ensures SameExcept(user, r.store[id], {Password})
    ensures r.store[id].password == h.hash(user.password)
  {
    Ok(s[id := user.(password := h.hash(user.password))], id)
  }

  /** `userExists(email)`. */
  ghost function UserExists(s: Store, email: string): (r: bool)
    ensures r <==> exists id :: id in s && s[id].email == email
  {
    FindOne(s, ByEmail(email)).Some?
  }

  /** `updateEmailPreference(id, preference)`: sets `emailEnabled` and returns
      the saved document. */
  ghost function UpdateEmailPreference(s: Store, id: Id, preference: bool): (r: Outcome<Account>)
    requires id in s
    ensures r.Ok?
    ensures UpdatedOnly(s, r.store, id, {EmailEnabled})
    ensures r.store[id].emailEnabled == preference
    ensures r.value == r.store[id]
  {
    var user := s[id].(emailEnabled := preference);
    Ok(s[id := user], user)
  }

  /** `updateEmailAddress(id, email)`: refused when any account, the caller's
      own included, already has `email`; otherwise sets `email`. */
  ghost function UpdateEmailAddress(s: Store, id: Id, email: string): (r: Outcome<Account>)
    requires id in s
    ensures r.ValidationError? <==> exists j :: j in s && s[j].email == email
    ensures r.ValidationError? ==> r.reason == EmailInUse
    ensures r.Ok? ==> UpdatedOnly(s, r.store, id, {Email})
    ensures r.Ok? ==> r.store[id].email == email && r.value == r.store[id]
  {
    if UserExists(s, email) then
      ValidationError(EmailInUse)
    else
      var user := s[id].(email := email);
      Ok(s[id := user], user)
  }

  /** `updateUsername(id, username)`: sets `username`, with no uniqueness check. */
  ghost function UpdateUsername(s: Store, id: Id, username: string): (r: Outcome<Account>)
    requires id in s
    ensures r.Ok?
    ensures UpdatedOnly(s, r.store, id, {Username})
    ensures r.store[id].username == username
    ensures r.value == r.store[id]
  {
    var user := s[id].(username := username);
    Ok(s[id := user], user)
  }

  /** `updatePassword(id, currentPassword, newPassword)`: refused unless the
      hasher accepts `currentPassword` against the stored hash; otherwise the
      stored hash becomes the hash of `newPassword`. */
  ghost function UpdatePassword(s: Store, id: Id, currentPassword: string, newPassword: string, h: Hasher)
    : (r: Outcome<Account>)
    requires id in s
    ensures r.Ok? <==> h.compare(currentPassword, s[id].password)
    ensures r.ValidationError? ==> r.reason == CurrentPasswordIncorrect
    ensures r.Ok? ==> UpdatedOnly(s, r.store, id, {Password})
    ensures r.Ok? ==> r.store[id].password == h.hash(newPassword) && r.value == r.store[id]
  {
    if h.compare(currentPassword, s[id].password) then
      var user := s[id].(password := h.hash(newPassword));
      Ok(s[id := user], user)
    else
      ValidationError(CurrentPasswordIncorrect)
  }

  /** `requestResetPassword(email)`: refused when no account has `email`;
      otherwise one such account gets the fresh token and the token is
      returned. `token` is the value `uuidv4()` produced for this call: any
      string of the version-4 layout, since `Uuid.ParseUuid` shows each one
      is `uuidv4`'s result for some draw of nibbles. */
  ghost function RequestResetPassword(s: Store, email: string, token: string): (r: Outcome<string>)
    requires Uuid.IsUuidV4(token)
    ensures r.ValidationError? <==> forall id :: id in s ==> s[id].email != email
    ensures r.ValidationError? ==> r.reason == NoAccountWithEmail(email)
    ensures r.Ok? ==> r.value == token
    ensures r.Ok? ==> exists id :: (
      && id in s && s[id].email == email
      && UpdatedOnly(s, r.store, id, {ResetPasswordToken})
      && r.store[id].resetPasswordToken == Some(token))
  {
    match FindOne(s, ByEmail(email))
    case None => ValidationError(NoAccountWithEmail(email))
    case Some(id) =>
      var s' := s[id := s[id].(resetPasswordToken := Some(token))];
      assert UpdatedOnly(s, s', id, {ResetPasswordToken});
      Ok(s', token)
  }

  /** Every token `uuidv4()` can produce is one `requestResetPassword` accepts,
      and the one it returns. */
  lemma RequestResetReturnsUuid(s: Store, email: string, rs: seq<int>)
    requires |rs| == 31 && Uuid.ValidNibbles(rs)
    ensures Uuid.IsUuidV4(Uuid.Uuidv4(rs))
    ensures var r := RequestResetPassword(s, email, Uuid.Uuidv4(rs));
      r.Ok? ==> r.value == Uuid.Uuidv4(rs) && r.value[14] == '4'
  {
  }

  /** `resetPassword(resetPasswordToken, newPassword)`: refused when no account
      has the given token value; otherwise one such account gets the hash of
      `newPassword` and its token is cleared. The argument is passed to
      `findOne` unchecked, so a null token matches an account with no pending
      reset. */
  ghost function ResetPassword(s: Store, token: Option<string>, newPassword: string, h: Hasher)
    : (r: Outcome<()>)
    ensures r.ValidationError? <==> forall id :: id in s ==> s[id].resetPasswordToken != token
    ensures r.ValidationError? ==> r.reason == TokenInvalid
    ensures r.Ok? ==> exists id :: (
      && id in s && s[id].resetPasswordToken == token
      && UpdatedOnly(s, r.store, id, {Password, ResetPasswordToken})
      && r.store[id].password == h.hash(newPassword)
      && r.store[id].resetPasswordToken == None)
  {
    match FindOne(s, ByResetToken(token))
    case None => ValidationError(TokenInvalid)
    case Some(id) =>
      var s' := s[id := s[id].(password := h.hash(newPassword), resetPasswordToken := None)];
      assert UpdatedOnly(s, s', id, {Password, ResetPasswordToken});
      Ok(s', ())
  }
}

=== FILE: uuid.dfy ===
/**
  The reset-token formatter `uuidv4` of server/services/user.js.

  `uuidv4` fills the template `xxxxxxxx-xxxx-4xxx-yxxx-xxxxxxxxxxxx` left to
  right: every `x` becomes a random nibble `r` written as a lower-case hex
  digit, every `y` becomes `(r & 0x3) | 0x8`. Here the random nibbles are an
  input, one per placeholder, in the order the placeholders are met.

  The layout the result follows is the version-4 UUID of section 4.4 of
  RFC 4122: hex digits in groups of 8-4-4-4-12, version nibble `4`, and the
  two high bits of the variant nibble set to `10`.
 */
module Uuid {

  /** The template `uuidv4` fills. */
  const Template: string := "xxxxxxxx-xxxx-4xxx-yxxx-xxxxxxxxxxxx"

  /** `Math.random() * 16 | 0` always lies in this range. */
  predicate IsNibble(r: int) {
    0 <= r < 16
  }

  predicate ValidNibbles(rs: seq<int>) {
    forall i :: 0 <= i < |rs| ==> IsNibble(rs[i])
  }

  /** A digit `Number.prototype.toString(16)` can produce for a nibble. */
  predicate IsLowerHex(c: char) {
    '0' <= c <= '9' || 'a' <= c <= 'f'
  }

  /** A variant digit of RFC 4122: a nibble whose two high bits are `10`. */
  predicate IsVariantDigit(c: char) {
    c == '8' || c == '9' || c == 'a' || c == 'b'
  }

  predicate IsPlaceholder(c: char) {
    c == 'x' || c == 'y'
  }

  /** The value of a lower-case hex digit. */
  function HexValue(c: char): (v: int)
    requires IsLowerHex(c)
    ensures IsNibble(v)
    ensures IsVariantDigit(c) <==> 8 <= v < 12
  {
    if c <= '9' then c as int - '0' as int else c as int - 'a' as int + 10
  }

  /** `v.toString(16)` for a nibble `v`. */
  function HexDigit(v: int): (c: char)
    requires IsNibble(v)
    ensures IsLowerHex(c)
    ensures HexValue(c) == v
  {
    if v < 10 then ('0' as int + v) as char else ('a' as int + v - 10) as char
  }

  lemma HexDigitOfValue(c: char)
    requires IsLowerHex(c)
    ensures HexDigit(HexValue(c)) == c
  {
  }

  /** The value written for a `y`: `(r & 0x3) | 0x8`. */
  function VariantNibble(r: int): (v: int)
    requires IsNibble(r)
    ensures 8 <= v < 12
    ensures v - 8 == r % 4
  {
    (((r as bv8) & 0x3) | 0x8) as int
  }

  /** The number of random nibbles filling `t` consumes. */
  function Placeholders(t: string): nat {
    if |t| == 0 then 0
    else (if IsPlaceholder(t[0]) then 1 else 0) + Placeholders(t[1..])
  }

  /** `s` has the shape of a fill of `t`: same length, every character that is
      not a placeholder kept, a hex digit for each `x`, a variant digit for each `y`. */
  predicate Fits(t: string, s: string) {
    && |s| == |t|
    && (forall i :: 0 <= i < |t| && !IsPlaceholder(t[i]) ==> s[i] == t[i])
    && (forall i :: 0 <= i < |t| && t[i] == 'x' ==> IsLowerHex(s[i]))
    && (forall i :: 0 <= i < |t| && t[i] == 'y' ==> IsVariantDigit(s[i]))
  }

  /** The `replace(/[xy]/g, …)` in `uuidv4`: each placeholder, left to right,
      takes the next nibble of `rs`. */
  function Fill(t: string, rs: seq<int>): (s: string)
    requires |rs| == Placeholders(t) && ValidNibbles(rs)
    ensures Fits(t, s)
    decreases |t|
  {
    if |t| == 0 then []
    else if t[0] == 'x' then [HexDigit(rs[0])] + Fill(t[1..], rs[1..])
    else if t[0] == 'y' then [HexDigit(VariantNibble(rs[0]))] + Fill(t[1..], rs[1..])
    else [t[0]] + Fill(t[1..], rs)
  }

  /** Reads back, from a string of the shape of `t`, nibbles that fill `t` to it. */
  function Parse(t: string, s: string): (rs: seq<int>)
    requires Fits(t, s)
    ensures |rs| == Placeholders(t) && ValidNibbles(rs)
    decreases |t|
  {
    if |t| == 0 then []
    else if t[0] == 'x' then [HexValue(s[0])] + Parse(t[1..], s[1..])
    else if t[0] == 'y' then [HexValue(s[0]) - 8] + Parse(t[1..], s[1..])
    else Parse(t[1..], s[1..])
  }

  /** The nibbles a fill actually records: an `x` nibble whole, a `y` nibble
      only in its two low bits. */
  function Recorded(t: string, rs: seq<int>): (rs': seq<int>)
    requires |rs| == Placeholders(t) && ValidNibbles(rs)
    ensures |rs'| == |rs| && ValidNibbles(rs')
    decreases |t|
  {
    if |t| == 0 then []
    else if t[0] == 'x' then [rs[0]] + Recorded(t[1..], rs[1..])
    else if t[0] == 'y' then [rs[0] % 4] + Recorded(t[1..], rs[1..])
    else Recorded(t[1..], rs)
  }

  /** Every string of the shape of `t` is a fill of `t`. */
  lemma {:induction false} FillParse(t: string, s: string)
    requires Fits(t, s)
    ensures Fill(t, Parse(t, s)) == s
    decreases |t|
  {
    if |t| > 0 {
      FillParse(t[1..], s[1..]);
      if t[0] == 'x' || t[0] == 'y' {
        HexDigitOfValue(s[0]);
      }
    }
  }

  /** Reading a fill back gives the nibbles it recorded. */
  lemma {:induction false} ParseFill(t: string, rs: seq<int>)
    requires |rs| == Placeholders(t) && ValidNibbles(rs)
    ensures Parse(t, Fill(t, rs)) == Recorded(t, rs)
    decreases |t|
  {
    if |t| > 0 {
      var s := Fill(t, rs);
      if IsPlaceholder(t[0]) {
        ParseFill(t[1..], rs[1..]);
        assert s[1..] == Fill(t[1..], rs[1..]);
      } else {
        ParseFill(t[1..], rs);
        assert s[1..] == Fill(t[1..], rs);
      }
    }
  }

  /** Positions of the four group separators. */
  predicate IsDash(i: int) {
    i == 8 || i == 13 || i == 18 || i == 23
  }

  /** The textual layout of a version-4 UUID (section 4.4 of RFC 4122) in
      lower case. */
  predicate IsUuidV4(s: string) {
    && |s| == 36
    && (forall i :: 0 <= i < 36 && IsDash(i) ==> s[i] == '-')
    && (forall i :: 0 <= i < 36 && !IsDash(i) ==> IsLowerHex(s[i]))
    && s[14] == '4'
    && IsVariantDigit(s[19])
  }

  /** The character the template holds at position `i`. */
  function TemplateChar(i: int): char {
    if IsDash(i) then '-' else if i == 14 then '4' else if i == 19 then 'y' else 'x'
  }

  /** How many of the template's five fixed characters lie at or after `k`. */
  function FixedFrom(k: int): int {
    (if k <= 8 then 1 else 0) + (if k <= 13 then 1 else 0) + (if k <= 14 then 1 else 0)
    + (if k <= 18 then 1 else 0) + (if k <= 23 then 1 else 0)
  }

  lemma TemplateChars()
    ensures |Template| == 36
    ensures forall i :: 0 <= i < 36 ==> Template[i] == TemplateChar(i)
  {
  }

  lemma {:induction false} PlaceholdersStep(t: string)
    requires |t| > 0
    ensures Placeholders(t) == (if IsPlaceholder(t[0]) then 1 else 0) + Placeholders(t[1..])
  {
  }

  lemma {:induction false} PlaceholdersFrom(k: nat)
    requires k <= 36
    ensures Placeholders(Template[k..]) == 36 - k - FixedFrom(k)
    decreases 36 - k
  {
    TemplateChars();
    if k < 36 {
      var rest := Template[k..];
      assert rest[0] == TemplateChar(k);
      assert rest[1..] == Template[k + 1..];
      PlaceholdersStep(rest);
      PlaceholdersFrom(k + 1);
    } else {
      assert Template[k..] == [];
    }
  }

  /** Filling the template consumes 31 nibbles. */
  lemma TemplatePlaceholders()
    ensures Placeholders(Template) == 31
  {
    PlaceholdersFrom(0);
    assert Template[0..] == Template;
  }

  /** A string has the version-4 layout exactly when it fits the template. */
  lemma UuidV4IsTemplateShape(s: string)
    ensures IsUuidV4(s) <==> Fits(Template, s)
  {
    TemplateChars();
  }

  /** `uuidv4()` with the random nibbles `rs`, one per placeholder. */
  function Uuidv4(rs: seq<int>): (s: string)
    requires |rs| == 31 && ValidNibbles(rs)
    ensures IsUuidV4(s)
  {
    TemplateChars();
    TemplatePlaceholders();
    var s := Fill(Template, rs);
    UuidV4IsTemplateShape(s);
    s
  }

  /** The inverse of `Uuidv4`: every version-4 UUID string is a token `uuidv4`
      can return, and these nibbles produce it. */
  function ParseUuid(s: string): (rs: seq<int>)
    requires IsUuidV4(s)
    ensures |rs| == 31 && ValidNibbles(rs)
    ensures Uuidv4(rs) == s
  {
    UuidV4IsTemplateShape(s);
    TemplateChars();
    TemplatePlaceholders();
    FillParse(Template, s);
    Parse(Template, s)
  }

  /** The nibbles a token records: the 30 `x` nibbles whole and the two low
      bits of the `y` nibble. */
  function TokenNibbles(rs: seq<int>): (rs': seq<int>)
    requires |rs| == 31 && ValidNibbles(rs)
    ensures |rs'| == 31 && ValidNibbles(rs')
  {
    TemplatePlaceholders();
    Recorded(Template, rs)
  }

  /** Reading a token back gives exactly the nibbles it records. */
  lemma ParseUuidV4(rs: seq<int>)
    requires |rs| == 31 && ValidNibbles(rs)
    ensures ParseUuid(Uuidv4(rs)) == TokenNibbles(rs)
  {
    TemplatePlaceholders();
    ParseFill(Template, rs);
  }

  /** Two tokens are equal exactly when their nibbles agree everywhere except in
      the two high bits of the variant nibble, which a token does not record. */
  lemma Uuidv4Injective(rs: seq<int>, rs': seq<int>)
    requires |rs| == 31 && ValidNibbles(rs)
    requires |rs'| == 31 && ValidNibbles(rs')
    ensures Uuidv4(rs) == Uuidv4(rs') <==> TokenNibbles(rs) == TokenNibbles(rs')
  {
    ParseUuidV4(rs);
    ParseUuidV4(rs');
    var s, s' := Uuidv4(rs), Uuidv4(rs');
    if TokenNibbles(rs) == TokenNibbles(rs') {
      assert Uuidv4(ParseUuid(s)) == s;
      assert Uuidv4(ParseUuid(s')) == s';
    }
  }
}

=== FILE: wrappers.dfy ===
/** Option, used for the store's nullable results and the account's nullable fields. */
module Wrappers {

  datatype Option<+T> = None | Some(value: T)
}
